=== FILE: README.md ===
# Minecraft status bot: poll, dedup and reconcile

This project models the core of a single-file chat bot (`index.js`). The bot
polls a Minecraft server's status from a public status API and keeps one
chat message in sync with it. It also shows the player count as the bot's
presence. The model covers three parts:

- **StatusFetcher** (`status_fetcher.dfy`): `getServerStatus` becomes a pure
  function. It maps what happened to the one HTTP request (rejected, no
  answer, or a response with a status flag and a body) to an
  `Option<Payload>`. Every failure path gives `None`, which stands for `null`.
- **SignatureComputer** (`signature_computer.dfy`): the status fingerprint
  `ONLINE-<players.online>-<players.max>-<motd.clean[0]>` or `OFFLINE`, and
  the presence text (`<n> Players` / `Offline`). `Decimal` (`decimal.dfy`)
  gives JavaScript's text for an integer, with a parser that reads it back.
- **MessageReconciler** (`message_reconciler.dfy`): one run of `updateStatus`
  as a pure step, in two versions: `StepAsWritten` follows the code line by
  line, and `Step` is the same cycle with the code fence at line 102 escaped
  (see Findings). The rest of the model is about `Step`. The state is `(messageId, lastSig)`, which stand for
  `CONFIG.MESSAGE_ID` and `lastStatusSignature`. The step also takes the
  outcomes of the cycle's external calls: ready, channel found, status,
  message fetched, edit succeeded, and the id a send returned. It returns the
  new state, the calls issued (`Edit`, `Send`, `SetActivity`) and how the
  cycle ended.
- **PollScheduler** (`poll_scheduler.dfy`): cycles run one after another.
  `Run` (a fold) and the `Poll` loop run the corrected `Step`;
  `RunAsWritten` runs `StepAsWritten`, and the two agree on every run in which
  no status has MOTD lines. It also holds the properties of whole runs and
  worked examples for both versions.

Each `Edit` and `Send` carries the status its embed is rendered from. The
embed itself is not modelled.

Two details of the code shape the model:

- A deduplicated cycle issues no call at all: line 86 returns before
  `setActivity` at line 118 (`PollScheduler.AnnounceThenRepeat`,
  `MessageReconciler.DedupSuppresses`).
- Besides the fetch failures, which `getServerStatus` turns into `null`, three
  TypeErrors end a cycle at line 123, all before any chat call:
  - An online payload without `players` throws at line 83.
  - An online payload without `debug` throws at line 95. This happens after
    the dedup test, so a deduplicated cycle never reaches it.
  - An online payload with at least one MOTD line throws at line 102, where
    the unescaped backticks make `""` a template tag (see Findings).

  All three leave the state untouched. A rejected send also ends the cycle at
  line 123, but the id cleared at line 109 stays cleared.

## Model

| member | source | states |
|---|---|---|
| StatusFetcher.FetchStatusAsWritten | index.js:43-55 | The request yields a payload exactly when headers arrive before the 4 s abort, the status is ok and the body parses. Abort, rejection, a non-ok status and bad JSON all give `None`. |
| StatusFetcher.ElapsedMsAsWritten | index.js:45-51 | As written, an aborted request returns at the timeout. A timely ok response returns after headers plus body time, which has no bound. |
| StatusFetcher.SlowBodyOverrunsTimeout | index.js:46-51 | Counterexample: headers at 100 ms and a 10 s body make the call take 10.1 s, past the 4 s bound. |
| StatusFetcher.FetchStatus | index.js:43-55 | Corrected fetch, with the timer covering the body read. It returns a payload exactly for a timely, ok, parseable answer, and then the same payload as the code. |
| StatusFetcher.ElapsedMs | index.js:45-51 | Corrected timing: the call never takes longer than the 4000 ms timeout. On abort it takes exactly the timeout; otherwise it matches the code. |
| StatusFetcher.IsOnline | index.js:80 | `data && data.online` holds only for a present payload, and for a present payload exactly when it reports the server online. |
| Decimal.NatToString | index.js:83 | A natural number's text is non-empty, all digits, at least two digits from 10 up, and starts with `0` only for zero itself (no leading zeros). |
| Decimal.IntToString | index.js:83 | An integer's text in a template literal is non-empty and starts with `-` exactly when the number is negative. |
| Decimal.DashOnlyAsSign | index.js:83 | An integer's text holds no dash except a leading minus sign, which is what lets a signature be split at its dashes. |
| Decimal.NatRoundTrip | index.js:83 | Reading the digits of a natural number's text gives the number back. |
| Decimal.IntRoundTrip | index.js:83 | Parsing an integer's text gives the integer back. |
| Decimal.IntToStringInjective | index.js:83 | Two integers have the same text exactly when they are equal. |
| SignatureComputer.MotdHead | index.js:83 | `${data.motd?.clean?.[0]}` is the text `undefined` when there is no MOTD, no `clean` list or an empty one, and the first line of a non-empty `clean` list otherwise. |
| SignatureComputer.SignatureThrows | index.js:80-83 | Reading `data.players.online` throws only for an online status, and never when `players` is present. |
| SignatureComputer.VisibleOf | index.js:80-84 | The visible dimensions are absent exactly when the signature throws (online, no `players`). They are `Down` exactly when the status is not online. |
| SignatureComputer.Render | index.js:82-84 | A signature is never the initial `''`. It is `OFFLINE` exactly for a down status and starts with `ONLINE-` exactly for an up one. |
| SignatureComputer.Signature | index.js:80-84 | The signature throws exactly when an online status lacks `players`. Any non-online status gives `OFFLINE`. An online signature starts with `ONLINE-`, is not `OFFLINE`, and is never `''`. |
| SignatureComputer.PresenceText | index.js:118-121 | The activity text is `Offline` exactly when the status is down. |
| SignatureComputer.PresenceShowsCount | index.js:119 | The online text `<n> Players` shows the count: two online statuses get the same presence text exactly when they have the same `players.online`. |
| SignatureComputer.SplitAfterInt | index.js:83 | `<int>-<rest>` splits in only one way: equal texts mean equal integers and equal rests. |
| SignatureComputer.RenderInjective | index.js:82-84 | Two signature texts are equal exactly when the visible dimensions are equal. |
| SignatureComputer.SignatureMatchesVisible | index.js:80-84 | Two statuses have equal signatures exactly when they agree on the online flag, both player counts and the first MOTD line. |
| SignatureComputer.OfflineCollapse | index.js:43-84 | With the fetch as written, a request aborted before its headers, a rejected request, a non-ok status or an unreadable body gives the same `OFFLINE` signature as any payload reporting the server down. |
| SignatureComputer.OfflineCollapseCorrected | index.js:80-84 | With the corrected fetch, which also aborts on a late body, every failed request still gives `OFFLINE`, the same as a payload reporting the server down. |
| SignatureComputer.SignatureIgnoresNoise | index.js:82-84 | Payloads that differ only in `debug.cachetime`, later MOTD lines or other fields have equal signatures. |
| SignatureComputer.SameSignatureSamePresence | index.js:118-121 | Equal signatures give equal presence text. So skipping `setActivity` on a deduplicated cycle never leaves a stale player count. |
| MessageReconciler.TallyAppend | index.js:105-121 | Counts of calls add up over concatenated call lists. |
| MessageReconciler.RenderThrows | index.js:95 | Reading `data.debug.cachetime` for the embed throws only for an online status. |
| MessageReconciler.MotdFenceThrows | index.js:101-102 | Line 102 throws only for an online status. Every online status whose first MOTD line reads as anything other than `undefined` throws, and an online status that does not throw has `undefined` as its MOTD text. |
| MessageReconciler.StepAsWritten | index.js:72-124 | The cycle as written equals the corrected `Step` on every status without MOTD lines. On an online status with MOTD lines it issues no call, leaves the state unchanged and never completes. |
| MessageReconciler.FenceThrowLeavesStateAlone | index.js:86-102 | As written, a cycle past the dedup test and the `debug` read with an online status that has MOTD lines fails at line 102, with no call and no state change. |
| MessageReconciler.TryEdit | index.js:105-110 | A message stays tracked exactly when one was tracked, its fetch succeeded and the edit succeeded. The fetch-and-edit phase never sends or sets presence, and issues at most the one edit. |
| MessageReconciler.Finish | index.js:117-121 | Completing a cycle records the new state and appends exactly one presence call as the last call. |
| MessageReconciler.Publish | index.js:105-121 | The publish phase completes or fails only on a rejected send. It sends once exactly when the message is not kept, edits at most once, and sets presence once exactly when it completes. A failure leaves no id and the old signature. |
| MessageReconciler.Step | index.js:72-124 | Corrected cycle (line 102 escaped). A cycle issues at most one send and one edit. It sets presence exactly when it completes, and then presence is the last call. A completed cycle tracks an id and records the current signature. Any other cycle keeps the old signature and at most drops the id. |
| MessageReconciler.GuardsAbortBeforeFetch | index.js:73-77 | Not ready or no channel: no call, no state change, and the result does not depend on the status at all. |
| MessageReconciler.ThrowLeavesStateAlone | index.js:82-95 | A TypeError on a missing `players`, or on a missing `debug` in a cycle that is not deduplicated (no id tracked, or a new signature), is caught before any call. The state is unchanged and the failure is not a rejected send. |
| MessageReconciler.DedupSuppresses | index.js:86 | Tracked id plus unchanged signature: no edit, no send, no `setActivity`, and the state is unchanged. |
| MessageReconciler.DedupOnlyWhenUnchanged | index.js:86 | A guarded cycle is deduplicated exactly when an id is tracked and the signature equals the recorded one. |
| MessageReconciler.EditSuccess | index.js:105-118 | Corrected step. A successful edit keeps the id, sends nothing and records the new signature. The calls are the edit, then the presence. |
| MessageReconciler.EditFailureRecreates | index.js:105-117 | Corrected step. A failed fetch or edit leads to exactly one send, and the send's id is adopted. If the send is rejected, no id remains, the old signature is kept and presence is not set. |
| MessageReconciler.UntrackedAlwaysSends | index.js:112-115 | Corrected step. With no tracked id, the cycle is never deduplicated. It sends exactly once and edits nothing. |
| MessageReconciler.InitialSignatureNeverMatches | index.js:28 | The initial `''` signature never matches any computed signature, so the first cycle is never suppressed. |
| MessageReconciler.StepPreservesConsistent | index.js:112-117 | Every cycle keeps the invariant: a tracked id always comes with a real signature. |
| MessageReconciler.StepAsWrittenPreservesConsistent | index.js:72-124 | Every cycle of the code as written keeps the same invariant. |
| MessageReconciler.QuietStepIsSilent | index.js:73-86 | With an id tracked, a cycle that fails its guards, throws on the signature or repeats the signature changes nothing. |
| MessageReconciler.RepeatIsSilent | index.js:86-121 | After a completed cycle, a cycle with the same signature issues no call. The presence it skips equals the one the completed cycle set. |
| PollScheduler.Run | index.js:126-131 | Corrected step. No ticks leave the state as it is with no calls. Each further tick keeps every call already issued, in order, at the head of the log. |
| PollScheduler.Advance | index.js:129-130 | Corrected step. One more cycle keeps the calls already issued as a prefix of the log. |
| PollScheduler.Poll | index.js:126-131 | Corrected step. Running the ticks one by one equals the fold `Run`. It keeps the state consistent and issues at most one send and one edit per tick. |
| PollScheduler.QuietRunIsSilent | index.js:86 | Once an id is tracked, any number of cycles with the same signature issue no call and leave the state as it is. |
| PollScheduler.RunPreservesConsistent | index.js:126-131 | Any sequence of cycles started in a consistent state ends in a consistent state. |
| PollScheduler.InitialConsistent | index.js:25-28 | The start state (no message id, empty signature) is consistent. |
| PollScheduler.ReachableConsistent | index.js:25-28 | Every state reached from process start by any sequence of cycles is consistent. |
| PollScheduler.RunAsWritten | index.js:126-131 | The cycles as the code runs them: no ticks leave the state as it is with no calls, and each further tick keeps every call already issued, in order, at the head of the log. |
| PollScheduler.AdvanceAsWritten | index.js:129-130 | One more cycle as written keeps the calls already issued as a prefix of the log. |
| PollScheduler.RunAsWrittenAgrees | index.js:101-102 | A run of the code as written equals the corrected run whenever no status in it has MOTD lines. |
| PollScheduler.FenceRunIsSilent | index.js:101-123 | As written, from any state, any number of cycles whose status is online with MOTD lines issue no call and leave the state where it was: the bot never posts or sets a presence for such a server. |
| PollScheduler.RunAsWrittenPreservesConsistent | index.js:126-131 | Any sequence of cycles as written, started in a consistent state, ends in a consistent state. |
| PollScheduler.ReachableConsistentAsWritten | index.js:25-28 | Every state the code as written reaches from process start is consistent. |
| PollScheduler.RunAppend | index.js:129-130 | Running two batches of ticks is the same as running them back to back. |
| PollScheduler.CompletedThenQuiet | index.js:86-121 | After a completed cycle, later cycles that keep its signature add no calls and no state change. |
| PollScheduler.RecreateThenSilent | index.js:105-117 | Corrected step. After a failed edit, the run sends exactly one replacement and then stays silent while the signature holds. |
| PollScheduler.AnnounceThenRepeat | index.js:82-121 | Corrected step. The first cycle with 3 of 20 players sends once and sets `3 Players`. An identical second cycle issues nothing, presence included. |
| PollScheduler.ChangeEdits | index.js:105-118 | Corrected step. A player joining causes exactly one edit of the tracked message, then the presence call. |
| PollScheduler.OutageEditsOnce | index.js:50-53 | With the fetch as written, an unanswered request edits the message to the offline rendering once. The signature becomes `OFFLINE`. |
| PollScheduler.FenceSilencesAnnounce | index.js:101-102 | Counterexample: as written, the first cycle for 3 of 20 players and the MOTD `Hi` fails at line 102 with no call and the initial state, while the corrected step sends the message and sets `3 Players`. |
| PollScheduler.FenceSilencesForever | index.js:101-131 | As written, any number of cycles for 3 of 20 players and the MOTD `Hi`, from process start, issue no call and leave the start state. |
| PollScheduler.BareAnnounces | index.js:101-121 | As written, a server without MOTD lines is announced: one send, then `3 Players`, and the signature ends in `undefined`. |
| PollScheduler.DeletedMessageResent | index.js:105-115 | Corrected step. When the tracked message is gone, a new one is sent in the same cycle and its id is adopted. |

## Findings

| source | as written | input that shows it | evidently intended | confidence | as-written member | corrected member |
|---|---|---|---|---|---|---|
| index.js:102 | `` ```${…}``` `` is not a code fence: the first two backticks are an empty template literal that becomes the tag of `` `${…}` ``, so the line calls `""` as a function and throws a TypeError, caught at line 123 | online, 3 of 20 players, `debug` present, MOTD `["Hi"]`, no message yet: no send, no presence, the state stays `(null, '')`, and the same happens every cycle | the MOTD lines become the embed's description inside a code block, and the cycle goes on to edit or send | high, not executed | PollScheduler.FenceSilencesAnnounce | MessageReconciler.Step |
| index.js:49 | `clearTimeout` runs as soon as the headers arrive, before `response.json()` reads the body, so the body read has no time limit | headers after 100 ms, body trickled over 10 s: the call takes 10.1 s | the 4-second bound covers the whole request, body included | medium, not executed | StatusFetcher.SlowBodyOverrunsTimeout | StatusFetcher.ElapsedMs |

`MessageReconciler.StepAsWritten` models line 102 as written and
`MessageReconciler.FenceThrowLeavesStateAlone` states its effect in general. As
written, the bot never posts or sets a presence for an online server that has a
MOTD line (`PollScheduler.FenceRunIsSilent`; `PollScheduler.FenceSilencesForever`
for the sample status). `MessageReconciler.Step` escapes the backticks. By the contract of
`StepAsWritten`, the two agree on every status without MOTD lines, so every
property of `Step` holds for the code as written on such statuses.

`StatusFetcher.FetchStatusAsWritten` and `StatusFetcher.ElapsedMsAsWritten`
model the code as written. `StatusFetcher.FetchStatus` and
`StatusFetcher.ElapsedMs` are the corrected versions, which treat a body that
is not read before the timer fires as an abort. When the corrected fetch
returns a payload, it returns the same payload as the code.

## Left out

- Discord client construction, cache limits and `client.login` (index.js:31-40, 135) are library I/O.
- Slash-command definition and registration (index.js:58-69) are left out. They are a REST wrapper with no state, and the file has no handler for either command.
- Embed rendering (index.js:88-103) is not modelled: title, colour, fields, the locale- and clock-dependent footer, and the MOTD join. `Edit` and `Send` carry the status the embed is built from. The parts of rendering that are modelled are the two TypeErrors it can throw: a missing `debug` (line 95) and the unescaped fence at line 102. In the corrected step the MOTD description itself is not modelled.
- The HTTP request, `AbortController` and the timer (index.js:45-49) are reduced to the `Transport` outcome and its timings. When the answer arrives exactly at 4000 ms, the result depends on a timer race; the model counts it as aborted.
- The `ready` event, `setInterval` and the `unhandledRejection` handler (index.js:126-133) are replaced by strictly sequential cycles. The real interval can start a cycle while the previous one is still waiting, and overlapping cycles are not modelled.
- Console logging is left out.
- `setActivity` is modelled as always taking effect. It is a synchronous presence update with no result the code looks at.
- JSON shapes are simplified. A body that parses but is not an object is modelled like an unreadable one (`None`); either way `online` is falsy, so the signature, presence and rendering paths are the same. `online` is a boolean, `motd.clean` is a list of strings, and the player counts are integers. With missing counts the code would print `undefined`; this is not modelled.
- Decimal.IntToString: writes integers only. JavaScript's exponent form for magnitudes of 1e21 and above, and fractional numbers, are not modelled; player counts are small whole numbers.
- Message ids are non-empty strings (chat snowflakes). So "`MESSAGE_ID` is truthy" is the same as "an id is tracked".
- SignatureComputer.SignatureMatchesVisible: the first-MOTD-line dimension compares the text `${motd?.clean?.[0]}`. A missing MOTD and a first line that reads `undefined` therefore count as the same, as they do in the code.
- MessageReconciler.EditSuccess: stated for the corrected step. As written it holds only for statuses without MOTD lines (by `StepAsWritten`'s contract), because line 102 throws first otherwise.
- MessageReconciler.EditFailureRecreates: stated for the corrected step. As written it holds only for statuses without MOTD lines, because line 102 throws first otherwise.
- MessageReconciler.UntrackedAlwaysSends: stated for the corrected step. As written it holds only for statuses without MOTD lines, because line 102 throws first otherwise.
- PollScheduler.RecreateThenSilent: stated for the corrected step. As written, an online status with MOTD lines sends no replacement.
- PollScheduler.AnnounceThenRepeat: stated for the corrected step. As written, the same status fails at line 102 (`PollScheduler.FenceSilencesAnnounce`). `PollScheduler.BareAnnounces` is the as-written announcement for a server without MOTD.
- PollScheduler.ChangeEdits: stated for the corrected step. As written, `Hi(4)` fails at line 102 and nothing is edited.
- PollScheduler.DeletedMessageResent: stated for the corrected step. As written, `Hi(4)` fails at line 102 before the message fetch and nothing is sent.
- PollScheduler.Run: folds the corrected step. `PollScheduler.RunAsWritten` is the code's sequence of cycles; the two agree when no status has MOTD lines (`PollScheduler.RunAsWrittenAgrees`).
- PollScheduler.Advance: one cycle of the corrected step. `PollScheduler.AdvanceAsWritten` is the code's.
- PollScheduler.Poll: the loop runs the corrected step. The code as written is covered by `PollScheduler.RunAsWritten` only, not by a loop of its own.

=== FILE: decimal.dfy ===
/** How a JavaScript template literal writes an integer-valued number:
    an optional minus sign followed by decimal digits, no leading zeros. */
module Decimal {

  predicate IsDigit(c: char) {
    '0' <= c <= '9'
  }

  predicate AllDigits(s: string) {
    forall i :: 0 <= i < |s| ==> IsDigit(s[i])
  }

  function DigitChar(d: nat): (c: char)
    requires d < 10
    ensures IsDigit(c)
    ensures c == '0' <==> d == 0
  {
    ('0' as int + d) as char
  }

  function DigitValue(c: char): nat
    requires IsDigit(c)
  {
    c as int - '0' as int
  }

  /** Decimal digits of `n`, most significant first. */
  function NatToString(n: nat): (s: string)
    ensures 1 <= |s|
    ensures AllDigits(s)
    ensures n >= 10 ==> 2 <= |s|
    ensures s[0] == '0' <==> n == 0
    decreases n
  {
    if n < 10 then [DigitChar(n)] else NatToString(n / 10) + [DigitChar(n % 10)]
  }

  /** `${n}` for an integer `n`. */
  function IntToString(n: int): (s: string)
    ensures 1 <= |s|
    ensures s[0] == '-' <==> n < 0
  {
    if n < 0 then "-" + NatToString(-n) else NatToString(n)
  }

  /** The only dash an integer's text can hold is its leading minus sign. */
  lemma DashOnlyAsSign(n: int)
    ensures forall i :: 1 <= i < |IntToString(n)| ==> IntToString(n)[i] != '-'
  {
    var s := IntToString(n);
    assert AllDigits(s[1..]) by {
      if n >= 0 {
        assert AllDigits(s);
      }
    }
    assert forall i :: 1 <= i < |s| ==> s[i] == s[1..][i - 1];
  }

  /** The value of a string of decimal digits (an independent reading of the text). */
  function DigitsValue(s: string): nat
    requires AllDigits(s)
    decreases |s|
  {
    if |s| == 0 then 0 else 10 * DigitsValue(s[..|s| - 1]) + DigitValue(s[|s| - 1])
  }

  /** Reads back what `IntToString` writes. */
  function ParseInt(s: string): int
    requires 1 <= |s|
    requires AllDigits(s[1..])
    requires s[0] == '-' || IsDigit(s[0])
  {
    if s[0] == '-' then 0 - DigitsValue(s[1..]) as int else DigitsValue(s)
  }

  lemma {:induction false} NatRoundTrip(n: nat)
    ensures DigitsValue(NatToString(n)) == n
    decreases n
  {
    var s := NatToString(n);
    if n >= 10 {
      NatRoundTrip(n / 10);
      assert s[..|s| - 1] == NatToString(n / 10);
    }
  }

  /** Reading back the text of any integer gives that integer. */
  lemma IntRoundTrip(n: int)
    ensures var s := IntToString(n); AllDigits(s[1..]) && ParseInt(s) == n
  {
    var s := IntToString(n);
    if n < 0 {
      assert s[1..] == NatToString(-n);
      NatRoundTrip(-n);
    } else {
      assert AllDigits(s);
      NatRoundTrip(n);
    }
  }

  /** Distinct integers are written differently. */
  lemma IntToStringInjective(a: int, b: int)
    ensures IntToString(a) == IntToString(b) <==> a == b
  {
    if IntToString(a) == IntToString(b) {
      IntRoundTrip(a);
      IntRoundTrip(b);
    }
  }
}

=== FILE: message_reconciler.dfy ===
/** One cycle of `updateStatus` (index.js lines 72-124) as a pure step from the
    tracked state and the outcomes of the cycle's external calls to the new
    state and the calls the cycle issues. */
module MessageReconciler {
  import opened Wrappers
  import opened StatusFetcher
  import opened SignatureComputer

  /** A chat message id. Snowflake ids are never the empty string, so "the id is
      truthy" is just "an id is tracked". */
  type Id = s: string | |s| > 0 witness "0"

  /** `CONFIG.MESSAGE_ID` and `lastStatusSignature`. */
  datatype State = State(messageId: Option<Id>, lastSig: string)

  /** The state at process start: no message, empty signature. */
  const Initial: State := State(None, NoSignature)

  /** An external call that changes something. `shown` is the status the
      message's embed is rendered from (the rendering itself is not modelled). */
  datatype Effect =
    | Edit(id: Id, shown: Option<Payload>)
    | Send(shown: Option<Payload>)
    | SetActivity(text: string)

  datatype Kind = EditCall | SendCall | ActivityCall

  function KindOf(e: Effect): Kind {
    match e
    case Edit(_, _) => EditCall
    case Send(_) => SendCall
    case SetActivity(_) => ActivityCall
  }

  /** How many calls of kind `k` appear in `es`. */
  function Tally(es: seq<Effect>, k: Kind): (n: nat)
    decreases |es|
  {
    if |es| == 0 then 0
    else Tally(es[..|es| - 1], k) + (if KindOf(es[|es| - 1]) == k then 1 else 0)
  }

  lemma {:induction false} TallyAppend(a: seq<Effect>, b: seq<Effect>, k: Kind)
    ensures Tally(a + b, k) == Tally(a, k) + Tally(b, k)
    decreases |b|
  {
    if |b| > 0 {
      var b' := b[..|b| - 1];
      assert (a + b)[..|a + b| - 1] == a + b';
      assert (a + b)[|a + b| - 1] == b[|b| - 1];
      TallyAppend(a, b', k);
    } else {
      assert a + b == a;
    }
  }

  /** One more call adds one to the tally of its own kind only. */
  lemma TallySnoc(es: seq<Effect>, e: Effect)
    ensures Tally(es + [e], SendCall) == Tally(es, SendCall) + (if KindOf(e) == SendCall then 1 else 0)
    ensures Tally(es + [e], EditCall) == Tally(es, EditCall) + (if KindOf(e) == EditCall then 1 else 0)
    ensures Tally(es + [e], ActivityCall) == Tally(es, ActivityCall) + (if KindOf(e) == ActivityCall then 1 else 0)
  {
    assert (es + [e])[..|es|] == es;
  }

  /** What the cycle's external calls returned. */
  datatype Outcomes = Outcomes(
    ready: bool,              // client.isReady()
    channelFound: bool,       // client.channels.fetch resolved to a channel
    status: Option<Payload>,  // getServerStatus()
    messageFetched: bool,     // channel.messages.fetch(MESSAGE_ID) resolved
    editOk: bool,             // msg.edit resolved
    sent: Option<Id>)         // channel.send resolved with this message's id; None: rejected

  /** Why a cycle stopped early after passing its guards. */
  datatype Failure =
    | MissingPlayers   // online without `players`: TypeError at line 83
    | MissingDebug     // online without `debug`: TypeError at line 95
    | MotdFence        // online with MOTD lines: TypeError at line 102
    | SendRejected     // channel.send rejected at line 113

  datatype Exit = NotReady | ChannelMissing | Deduplicated | Failed(why: Failure) | Completed

  datatype Cycle = Cycle(state: State, effects: seq<Effect>, exit: Exit)

  /** Building the embed reads `data.debug.cachetime` when online, which throws
      when `debug` is absent. */
  predicate RenderThrows(data: Option<Payload>)
    ensures RenderThrows(data) ==> IsOnline(data)
  {
    IsOnline(data) && data.value.debug.None?
  }

  /** Line 102 as written: in `` ```${…}``` `` the first two backticks are an
      empty template literal that becomes the tag of `` `${…}` ``, so the line
      calls `""` as a function and throws. It runs for every online status with
      at least one MOTD line: every online status whose signature shows a
      first MOTD line other than `undefined` takes this path. */
  predicate MotdFenceThrows(data: Option<Payload>)
    ensures MotdFenceThrows(data) ==> IsOnline(data)
    ensures IsOnline(data) && MotdHead(data.value) != "undefined" ==> MotdFenceThrows(data)
    ensures IsOnline(data) && !MotdFenceThrows(data) ==> MotdHead(data.value) == "undefined"
  {
    && IsOnline(data)
    && data.value.motd.Some? && data.value.motd.value.clean.Some?
    && |data.value.motd.value.clean.value| > 0
  }

  /** A state the bot can be in: the last signature is empty or a real signature,
      and a tracked message always comes with a real signature. */
  predicate Consistent(s: State) {
    && (s.lastSig == NoSignature || IsSignature(s.lastSig))
    && (s.messageId.Some? ==> IsSignature(s.lastSig))
  }

  /** Lines 105-110: fetch and edit the tracked message; any failure clears the id.
      Returns the id still tracked and the calls issued. */
  function TryEdit(id: Option<Id>, o: Outcomes): (r: (Option<Id>, seq<Effect>))
    ensures r.0.Some? <==> id.Some? && o.messageFetched && o.editOk
    ensures r.0.Some? ==> r.0 == id
    ensures Tally(r.1, SendCall) == 0 && Tally(r.1, ActivityCall) == 0 && Tally(r.1, EditCall) <= 1
    ensures r.1 == [] || (id.Some? && r.1 == [Edit(id.value, o.status)])
  {
    if id.None? || !o.messageFetched then (None, [])
    else if !o.editOk then (None, [Edit(id.value, o.status)])
    else (id, [Edit(id.value, o.status)])
  }

  /** Lines 117-121: record the signature and set the presence. */
  function Finish(st: State, calls: seq<Effect>, activity: string): (c: Cycle)
    ensures c.state == st && c.exit == Completed
    ensures Tally(c.effects, SendCall) == Tally(calls, SendCall)
    ensures Tally(c.effects, EditCall) == Tally(calls, EditCall)
    ensures Tally(c.effects, ActivityCall) == Tally(calls, ActivityCall) + 1
    ensures 0 < |c.effects| && c.effects[|c.effects| - 1] == SetActivity(activity)
  {
    TallySnoc(calls, SetActivity(activity));
    Cycle(st, calls + [SetActivity(activity)], Completed)
  }

  /** Lines 105-121, reached once the signature is known, the cycle is not
      deduplicated and the embed has been built. */
  function Publish(s: State, sig: string, activity: string, o: Outcomes): (c: Cycle)
    ensures c.exit.Completed? || c.exit == Failed(SendRejected)
    ensures Tally(c.effects, SendCall) == (if TryEdit(s.messageId, o).0.Some? then 0 else 1)
    ensures Tally(c.effects, EditCall) <= 1
    ensures Tally(c.effects, ActivityCall) == (if c.exit.Completed? then 1 else 0)
    ensures c.exit.Completed? ==>
              && c.state.lastSig == sig && c.state.messageId.Some?
              && 0 < |c.effects|
              && c.effects[|c.effects| - 1] == SetActivity(activity)
    ensures !c.exit.Completed? ==> c.state == State(None, s.lastSig) && o.sent.None?
  {
    var tried := TryEdit(s.messageId, o);
    if tried.0.Some? then
      Finish(State(tried.0, sig), tried.1, activity)
    else
      var calls := tried.1 + [Send(o.status)];
      TallySnoc(tried.1, Send(o.status));
      match o.sent
      case None => Cycle(State(None, s.lastSig), calls, Failed(SendRejected))
      case Some(id) => Finish(State(Some(id), sig), calls, activity)
  }

  /** One call of `updateStatus` as written, line 102 included. It agrees with
      `Step` on every status without MOTD lines; on an online status with MOTD
      lines it never gets past building the embed. */
  function StepAsWritten(s: State, o: Outcomes): (c: Cycle)
    ensures !MotdFenceThrows(o.status) ==> c == Step(s, o)
    ensures MotdFenceThrows(o.status) ==> c.state == s && c.effects == [] && !c.exit.Completed?
  {
    if !o.ready then Cycle(s, [], NotReady)
    else if !o.channelFound then Cycle(s, [], ChannelMissing)
    else match Signature(o.status)
      case None => Cycle(s, [], Failed(MissingPlayers))
      case Some(sig) =>
        if s.messageId.Some? && sig == s.lastSig then Cycle(s, [], Deduplicated)
        else if RenderThrows(o.status) then Cycle(s, [], Failed(MissingDebug))
        else if MotdFenceThrows(o.status) then Cycle(s, [], Failed(MotdFence))
        else Publish(s, sig, PresenceText(VisibleOf(o.status).value), o)
  }

  /** One call of `updateStatus` with the code fence at line 102 escaped, so
      that the MOTD lines become the embed's description as evidently meant.
      The rest of the model is about this step. */
  function Step(s: State, o: Outcomes): (c: Cycle)
    ensures Tally(c.effects, SendCall) <= 1 && Tally(c.effects, EditCall) <= 1
    ensures c.exit.Completed? <==> Tally(c.effects, ActivityCall) > 0
    ensures c.exit.Completed? ==>
              && c.state.messageId.Some?
              && Signature(o.status) == Some(c.state.lastSig)
              && 0 < |c.effects|
              && c.effects[|c.effects| - 1] == SetActivity(PresenceText(VisibleOf(o.status).value))
    ensures !c.exit.Completed? ==>
              c.state.lastSig == s.lastSig && (c.state.messageId == s.messageId || c.state.messageId.None?)
  {
    if !o.ready then Cycle(s, [], NotReady)
    else if !o.channelFound then Cycle(s, [], ChannelMissing)
    else match Signature(o.status)
      case None => Cycle(s, [], Failed(MissingPlayers))
      case Some(sig) =>
        if s.messageId.Some? && sig == s.lastSig then Cycle(s, [], Deduplicated)
        else if RenderThrows(o.status) then Cycle(s, [], Failed(MissingDebug))
        else Publish(s, sig, PresenceText(VisibleOf(o.status).value), o)
  }

  /** Reaching the signature: ready, a channel, and a status whose signature can be computed. */
  predicate PassesGuards(o: Outcomes) {
    o.ready && o.channelFound && Signature(o.status).Some?
  }

  /** Not ready or no channel: the cycle returns before the status is even
      fetched, issues no call and changes nothing. */
  lemma GuardsAbortBeforeFetch(s: State, o: Outcomes, other: Option<Payload>)
    requires !o.ready || !o.channelFound
    ensures Step(s, o).state == s && Step(s, o).effects == []
    ensures Step(s, o).exit == (if o.ready then ChannelMissing else NotReady)
    ensures Step(s, o.(status := other)) == Step(s, o)
  {
  }

  /** A TypeError while computing the signature or building the embed is caught
      at the cycle boundary before any call or state change. */
  lemma ThrowLeavesStateAlone(s: State, o: Outcomes)
    requires o.ready && o.channelFound
    requires SignatureThrows(o.status)
             || (RenderThrows(o.status) && !(s.messageId.Some? && Signature(o.status) == Some(s.lastSig)))
    ensures Step(s, o).state == s && Step(s, o).effects == []
    ensures Step(s, o).exit.Failed? && Step(s, o).exit.why != SendRejected
  {
  }

  /** As written, a cycle that gets past the dedup test and the `debug` read with
      an online status that has MOTD lines throws at line 102: no fetch, edit,
      send or presence call, and no state change. */
  lemma FenceThrowLeavesStateAlone(s: State, o: Outcomes)
    requires PassesGuards(o) && !(s.messageId.Some? && Signature(o.status) == Some(s.lastSig))
    requires !RenderThrows(o.status) && MotdFenceThrows(o.status)
    ensures StepAsWritten(s, o) == Cycle(s, [], Failed(MotdFence))
  {
  }

  /** Dedup: a tracked message and an unchanged signature mean no edit, no send,
      no presence update and no state change. */
  lemma DedupSuppresses(s: State, o: Outcomes)
    requires o.ready && o.channelFound && s.messageId.Some?
    requires Signature(o.status) == Some(s.lastSig)
    ensures Step(s, o) == Cycle(s, [], Deduplicated)
  {
  }

  /** The dedup test fires only when a message is tracked and the signature is
      unchanged: every other guarded cycle goes on to publish. */
  lemma DedupOnlyWhenUnchanged(s: State, o: Outcomes)
    requires PassesGuards(o)
    ensures Step(s, o).exit == Deduplicated <==> s.messageId.Some? && Signature(o.status) == Some(s.lastSig)
  {
  }

  /** A successful edit keeps the id, sends nothing and records the new signature. */
  lemma EditSuccess(s: State, o: Outcomes)
    requires PassesGuards(o) && !RenderThrows(o.status)
    requires s.messageId.Some? && Signature(o.status) != Some(s.lastSig)
    requires o.messageFetched && o.editOk
    ensures var c := Step(s, o);
            && c.state == State(s.messageId, Signature(o.status).value)
            && c.effects == [Edit(s.messageId.value, o.status), SetActivity(PresenceText(VisibleOf(o.status).value))]
            && c.exit == Completed
  {
  }

  /** A failed fetch or edit clears the id and exactly one send follows in the
      same cycle. Its id is adopted; if it is rejected the id stays cleared and
      the old signature is kept, so the next cycle sends again. */
  lemma EditFailureRecreates(s: State, o: Outcomes)
    requires PassesGuards(o) && !RenderThrows(o.status)
    requires s.messageId.Some? && Signature(o.status) != Some(s.lastSig)
    requires !(o.messageFetched && o.editOk)
    ensures var c := Step(s, o);
            && Tally(c.effects, SendCall) == 1
            && Tally(c.effects, EditCall) == (if o.messageFetched then 1 else 0)
            && c.state.messageId == o.sent
            && (o.sent.Some? ==> c.exit == Completed && c.state.lastSig == Signature(o.status).value)
            && (o.sent.None? ==> c.exit == Failed(SendRejected) && c.state.lastSig == s.lastSig
                                 && Tally(c.effects, ActivityCall) == 0)
  {
    var c := Step(s, o);
    var edits := TryEdit(s.messageId, o).1;
    TallyAppend(edits, [Send(o.status)], EditCall);
    if o.sent.Some? {
      TallyAppend(edits + [Send(o.status)], [SetActivity(PresenceText(VisibleOf(o.status).value))], EditCall);
      assert c.effects == edits + [Send(o.status)] + [SetActivity(PresenceText(VisibleOf(o.status).value))];
    }
  }

  /** With no tracked message the cycle always sends exactly once and edits
      nothing, whatever the signature: the first cycle always announces. */
  lemma UntrackedAlwaysSends(s: State, o: Outcomes)
    requires PassesGuards(o) && !RenderThrows(o.status)
    requires s.messageId.None?
    ensures Step(s, o).exit != Deduplicated
    ensures Tally(Step(s, o).effects, SendCall) == 1 && Tally(Step(s, o).effects, EditCall) == 0
    ensures Step(s, o).state.messageId == o.sent
  {
    var c := Step(s, o);
    TallyAppend([], [Send(o.status)], EditCall);
    if o.sent.Some? {
      TallyAppend([Send(o.status)], [SetActivity(PresenceText(VisibleOf(o.status).value))], EditCall);
      assert c.effects == [Send(o.status)] + [SetActivity(PresenceText(VisibleOf(o.status).value))];
    }
  }

  /** The initial empty signature never matches, so even a state that tracked
      a message with the initial signature would publish. */
  lemma InitialSignatureNeverMatches(o: Outcomes, id: Id)
    requires PassesGuards(o)
    ensures Step(Initial, o).exit != Deduplicated
    ensures Step(State(Some(id), NoSignature), o).exit != Deduplicated
  {
  }

  /** Every cycle keeps the state consistent. */
  lemma StepPreservesConsistent(s: State, o: Outcomes)
    requires Consistent(s)
    ensures Consistent(Step(s, o).state)
  {
    var c := Step(s, o);
    if c.exit.Completed? {
      assert Signature(o.status) == Some(c.state.lastSig);
    }
  }

  /** The cycle as written keeps the invariant too: off the fence it is `Step`,
      and on the fence it changes nothing. */
  lemma StepAsWrittenPreservesConsistent(s: State, o: Outcomes)
    requires Consistent(s)
    ensures Consistent(StepAsWritten(s, o).state)
  {
    if !MotdFenceThrows(o.status) {
      StepPreservesConsistent(s, o);
    }
  }

  /** With a message tracked, a cycle that fails its guards, throws on the
      signature or repeats the recorded signature changes nothing. */
  lemma QuietStepIsSilent(s: State, o: Outcomes)
    requires s.messageId.Some?
    requires !o.ready || !o.channelFound || Signature(o.status).None? || Signature(o.status) == Some(s.lastSig)
    ensures Step(s, o).state == s && Step(s, o).effects == []
  {
  }

  /** After a completed cycle, a cycle whose status has the same signature issues
      no call at all, and the presence it skips is the one already set. */
  lemma RepeatIsSilent(s: State, o: Outcomes, o': Outcomes)
    requires Step(s, o).exit.Completed?
    requires o'.ready && o'.channelFound && Signature(o'.status) == Signature(o.status)
    ensures Step(Step(s, o).state, o') == Cycle(Step(s, o).state, [], Deduplicated)
    ensures var es := Step(s, o).effects;
            es[|es| - 1] == SetActivity(PresenceText(VisibleOf(o'.status).value))
  {
    SameSignatureSamePresence(o.status, o'.status);
  }
}

=== FILE: poll_scheduler.dfy ===
/** Cycles run one after another: the one started on `ready` and then one per
    interval tick (index.js lines 126-131), each cycle seeing the state the
    previous one left. Overlapping cycles are not modelled. */
module PollScheduler {
  import opened Wrappers
  import opened StatusFetcher
  import opened SignatureComputer
  import opened MessageReconciler

  /** Where a sequence of cycles leaves the tracked state, and every call they issued, in order. */
  datatype Trace = Trace(state: State, log: seq<Effect>)

  function Run(s0: State, ticks: seq<Outcomes>): (r: Trace)
    ensures |ticks| == 0 ==> r == Trace(s0, [])
    ensures |ticks| > 0 ==> Run(s0, ticks[..|ticks| - 1]).log <= r.log
    decreases |ticks|
  {
    if |ticks| == 0 then Trace(s0, []) else Advance(Run(s0, ticks[..|ticks| - 1]), ticks[|ticks| - 1])
  }

  /** One more cycle after `t`: calls already issued stay as they are, in order. */
  function Advance(t: Trace, o: Outcomes): (r: Trace)
    ensures t.log <= r.log
  {
    var c := Step(t.state, o);
    assert (t.log + c.effects)[..|t.log|] == t.log;
    Trace(c.state, t.log + c.effects)
  }

  /** The scheduler: run the cycles one at a time, threading the tracked state. */
  method Poll(s0: State, ticks: seq<Outcomes>) returns (s: State, log: seq<Effect>)
    ensures Trace(s, log) == Run(s0, ticks)
    ensures Consistent(s0) ==> Consistent(s)
    ensures Tally(log, SendCall) <= |ticks| && Tally(log, EditCall) <= |ticks|
  {
    s, log := s0, [];
    var i := 0;
    while i < |ticks|
      invariant 0 <= i <= |ticks|
      invariant Trace(s, log) == Run(s0, ticks[..i])
      invariant Consistent(s0) ==> Consistent(s)
      invariant Tally(log, SendCall) <= i && Tally(log, EditCall) <= i
    {
      var c := Step(s, ticks[i]);
      if Consistent(s0) {
        StepPreservesConsistent(s, ticks[i]);
      }
      TallyAppend(log, c.effects, SendCall);
      TallyAppend(log, c.effects, EditCall);
      assert ticks[..i + 1][..i] == ticks[..i];
      s, log := c.state, log + c.effects;
      i := i + 1;
    }
    assert ticks[..i] == ticks;
  }

  /** Cycles that cannot change anything once `sig` is recorded with a tracked
      message: guards fail, the signature throws, or the signature is `sig`. */
  predicate Quiet(o: Outcomes, sig: string) {
    !o.ready || !o.channelFound || Signature(o.status).None? || Signature(o.status) == Some(sig)
  }

  /** No duplicate notifications: once a message is tracked, any number of cycles
      whose signature stays the same issue no call and leave the state as it is. */
  lemma {:induction false} QuietRunIsSilent(s: State, ticks: seq<Outcomes>)
    requires s.messageId.Some?
    requires forall i :: 0 <= i < |ticks| ==> Quiet(ticks[i], s.lastSig)
    ensures Run(s, ticks) == Trace(s, [])
    decreases |ticks|
  {
    if |ticks| > 0 {
      var init := ticks[..|ticks| - 1];
      assert forall i :: 0 <= i < |init| ==> init[i] == ticks[i];
      QuietRunIsSilent(s, init);
      var o := ticks[|ticks| - 1];
      assert Quiet(o, s.lastSig);
      QuietStepIsSilent(s, o);
    }
  }

  /** Every reachable state is consistent. */
  lemma {:induction false} RunPreservesConsistent(s0: State, ticks: seq<Outcomes>)
    requires Consistent(s0)
    ensures Consistent(Run(s0, ticks).state)
    decreases |ticks|
  {
    if |ticks| > 0 {
      RunPreservesConsistent(s0, ticks[..|ticks| - 1]);
      StepPreservesConsistent(Run(s0, ticks[..|ticks| - 1]).state, ticks[|ticks| - 1]);
    }
  }

  /** The bot starts in a consistent state. */
  lemma InitialConsistent()
    ensures Consistent(Initial)
  {
  }

  /** Every state the bot reaches from process start is consistent. */
  lemma ReachableConsistent(ticks: seq<Outcomes>)
    ensures Consistent(Run(Initial, ticks).state)
  {
    InitialConsistent();
    RunPreservesConsistent(Initial, ticks);
  }

  /** The cycles as the code runs them, line 102 included. */
  function RunAsWritten(s0: State, ticks: seq<Outcomes>): (r: Trace)
    ensures |ticks| == 0 ==> r == Trace(s0, [])
    ensures |ticks| > 0 ==> RunAsWritten(s0, ticks[..|ticks| - 1]).log <= r.log
    decreases |ticks|
  {
    if |ticks| == 0 then Trace(s0, [])
    else AdvanceAsWritten(RunAsWritten(s0, ticks[..|ticks| - 1]), ticks[|ticks| - 1])
  }

  /** One more cycle as written after `t`: calls already issued stay as they are. */
  function AdvanceAsWritten(t: Trace, o: Outcomes): (r: Trace)
    ensures t.log <= r.log
  {
    var c := StepAsWritten(t.state, o);
    assert (t.log + c.effects)[..|t.log|] == t.log;
    Trace(c.state, t.log + c.effects)
  }

  /** The code as written and the corrected cycles agree on every run in which
      no status has MOTD lines. */
  lemma {:induction false} RunAsWrittenAgrees(s0: State, ticks: seq<Outcomes>)
    requires forall i :: 0 <= i < |ticks| ==> !MotdFenceThrows(ticks[i].status)
    ensures RunAsWritten(s0, ticks) == Run(s0, ticks)
    decreases |ticks|
  {
    if |ticks| > 0 {
      var init := ticks[..|ticks| - 1];
      assert forall i :: 0 <= i < |init| ==> init[i] == ticks[i];
      RunAsWrittenAgrees(s0, init);
      assert !MotdFenceThrows(ticks[|ticks| - 1].status);
    }
  }

  /** As written, the bot never posts and never sets a presence while the server
      is online with a MOTD: every such cycle throws at line 102, whatever the
      state, so the state stays where it was and no call is made. */
  lemma {:induction false} FenceRunIsSilent(s0: State, ticks: seq<Outcomes>)
    requires forall i :: 0 <= i < |ticks| ==> MotdFenceThrows(ticks[i].status)
    ensures RunAsWritten(s0, ticks) == Trace(s0, [])
    decreases |ticks|
  {
    if |ticks| > 0 {
      var init := ticks[..|ticks| - 1];
      assert forall i :: 0 <= i < |init| ==> init[i] == ticks[i];
      FenceRunIsSilent(s0, init);
      assert MotdFenceThrows(ticks[|ticks| - 1].status);
      assert [] + StepAsWritten(s0, ticks[|ticks| - 1]).effects == [];
    }
  }

  /** Every state the code as written reaches from a consistent one is consistent. */
  lemma {:induction false} RunAsWrittenPreservesConsistent(s0: State, ticks: seq<Outcomes>)
    requires Consistent(s0)
    ensures Consistent(RunAsWritten(s0, ticks).state)
    decreases |ticks|
  {
    if |ticks| > 0 {
      RunAsWrittenPreservesConsistent(s0, ticks[..|ticks| - 1]);
      StepAsWrittenPreservesConsistent(RunAsWritten(s0, ticks[..|ticks| - 1]).state, ticks[|ticks| - 1]);
    }
  }

  /** Every state the code as written reaches from process start is consistent. */
  lemma ReachableConsistentAsWritten(ticks: seq<Outcomes>)
    ensures Consistent(RunAsWritten(Initial, ticks).state)
  {
    InitialConsistent();
    RunAsWrittenPreservesConsistent(Initial, ticks);
  }

  /** A run of one tick is that tick's cycle. */
  lemma RunSingle(s: State, o: Outcomes)
    ensures Run(s, [o]) == Trace(Step(s, o).state, Step(s, o).effects)
  {
    assert [o][..0] == [];
  }

  /** After a completed cycle, cycles that keep its signature add nothing. */
  lemma CompletedThenQuiet(s: State, o: Outcomes, later: seq<Outcomes>)
    requires Step(s, o).exit.Completed?
    requires forall i :: 0 <= i < |later| ==> Quiet(later[i], Step(s, o).state.lastSig)
    ensures Run(s, [o] + later) == Trace(Step(s, o).state, Step(s, o).effects)
  {
    var c := Step(s, o);
    RunSingle(s, o);
    QuietRunIsSilent(c.state, later);
    RunAppend(s, [o], later);
    assert c.effects + [] == c.effects;
  }

  /** Recovery from a deleted message: a cycle whose edit fails sends exactly one
      replacement and adopts its id; from then on cycles with the same signature
      send and edit nothing. */
  lemma RecreateThenSilent(s: State, o: Outcomes, later: seq<Outcomes>)
    requires PassesGuards(o) && !RenderThrows(o.status)
    requires s.messageId.Some? && Signature(o.status) != Some(s.lastSig)
    requires !(o.messageFetched && o.editOk) && o.sent.Some?
    requires forall i :: 0 <= i < |later| ==> Quiet(later[i], Signature(o.status).value)
    ensures Tally(Run(s, [o] + later).log, SendCall) == 1
    ensures Run(s, [o] + later).state == State(o.sent, Signature(o.status).value)
  {
    EditFailureRecreates(s, o);
    CompletedThenQuiet(s, o, later);
  }

  lemma AdvanceExtendsLog(st: State, l: seq<Effect>, m: seq<Effect>, o: Outcomes)
    ensures Advance(Trace(st, l + m), o) == Trace(Advance(Trace(st, m), o).state, l + Advance(Trace(st, m), o).log)
  {
    var c := Step(st, o);
    Regroup(l, m, c.effects);
  }

  /** Concatenation regrouped, stated apart so that no cycle has to be unfolded to use it. */
  lemma Regroup(l: seq<Effect>, m: seq<Effect>, e: seq<Effect>)
    ensures l + m + e == l + (m + e)
  {
  }

  /** Running two batches of ticks is running them back to back. */
  lemma {:induction false} RunAppend(s0: State, a: seq<Outcomes>, b: seq<Outcomes>)
    ensures Run(s0, a + b) == Trace(Run(Run(s0, a).state, b).state, Run(s0, a).log + Run(Run(s0, a).state, b).log)
    decreases |b|
  {
    if |b| == 0 {
      assert a + b == a;
    } else {
      var b', o := b[..|b| - 1], b[|b| - 1];
      assert (a + b)[..|a + b| - 1] == a + b';
      assert (a + b)[|a + b| - 1] == o;
      RunAppend(s0, a, b');
      var first := Run(s0, a);
      var mid := Run(first.state, b');
      assert Run(s0, a + b) == Advance(Trace(mid.state, first.log + mid.log), o);
      assert Run(first.state, b) == Advance(mid, o);
      AdvanceExtendsLog(mid.state, first.log, mid.log, o);
    }
  }

  /** A status with `n` of 20 players online and the MOTD `Hi`. */
  function Hi(n: int): Option<Payload> {
    Some(Payload(true, Some(Players(n, 20)), Some(Motd(Some(["Hi"]))), Some(Debug(Some(35)))))
  }

  /** A cycle whose calls all succeed, reading `status`; a send returns `id`. */
  function Smooth(status: Option<Payload>, id: Id): Outcomes {
    Outcomes(true, true, status, true, true, Some(id))
  }

  /** The text of the small numbers the samples use. */
  lemma SampleNumbers()
    ensures Decimal.IntToString(3) == "3" && Decimal.IntToString(4) == "4"
    ensures Decimal.IntToString(20) == "20"
  {
    assert Decimal.NatToString(2) == "2";
    assert Decimal.NatToString(0) == "0";
  }

  /** The signature and presence text of the sample statuses. */
  lemma SampleFacts()
    ensures Signature(Hi(3)) == Some("ONLINE-3-20-Hi") && Signature(Hi(4)) == Some("ONLINE-4-20-Hi")
    ensures PresenceText(VisibleOf(Hi(3)).value) == "3 Players"
    ensures PresenceText(VisibleOf(Hi(4)).value) == "4 Players"
  {
    SampleNumbers();
    assert VisibleOf(Hi(3)) == Some(Up(3, 20, "Hi"));
    assert VisibleOf(Hi(4)) == Some(Up(4, 20, "Hi"));
    assert Field(20, "Hi") == "20-Hi";
    assert OnlinePrefix + Field(3, "20-Hi") == "ONLINE-3-20-Hi";
    assert OnlinePrefix + Field(4, "20-Hi") == "ONLINE-4-20-Hi";
  }

  /** First cycle ever, 3 of 20 players online: one message is sent and the
      presence reads `3 Players`. The identical second cycle issues no call,
      presence included. */
  lemma AnnounceThenRepeat()
    ensures var c1 := Step(Initial, Smooth(Hi(3), "m1"));
            && c1.effects == [Send(Hi(3)), SetActivity("3 Players")]
            && c1.state == State(Some("m1"), "ONLINE-3-20-Hi")
            && Step(c1.state, Smooth(Hi(3), "m2")) == Cycle(c1.state, [], Deduplicated)
  {
    SampleFacts();
    var o := Smooth(Hi(3), "m1");
    assert TryEdit(None, o) == (None, []);
    var p := Publish(Initial, "ONLINE-3-20-Hi", "3 Players", o);
    assert p.effects == [] + [Send(Hi(3))] + [SetActivity("3 Players")];
    assert [] + [Send(Hi(3))] + [SetActivity("3 Players")] == [Send(Hi(3)), SetActivity("3 Players")];
    assert Step(Initial, o) == p;
    DedupSuppresses(p.state, Smooth(Hi(3), "m2"));
  }

  /** As written, the first cycle for a server with a MOTD throws at line 102:
      nothing is sent, no presence is set and the state stays initial, so every
      later cycle with that status throws the same way. The corrected step
      announces the same status. */
  lemma FenceSilencesAnnounce()
    ensures StepAsWritten(Initial, Smooth(Hi(3), "m1")) == Cycle(Initial, [], Failed(MotdFence))
    ensures Step(Initial, Smooth(Hi(3), "m1")).effects == [Send(Hi(3)), SetActivity("3 Players")]
  {
    SampleFacts();
    FenceThrowLeavesStateAlone(Initial, Smooth(Hi(3), "m1"));
    AnnounceThenRepeat();
  }

  /** As written, any number of cycles for 3 of 20 players and the MOTD `Hi`,
      from process start, issue no call and leave the bot in its start state. */
  lemma FenceSilencesForever(n: nat)
    ensures RunAsWritten(Initial, seq(n, _ => Smooth(Hi(3), "m1"))) == Trace(Initial, [])
  {
    FenceRunIsSilent(Initial, seq(n, _ => Smooth(Hi(3), "m1")));
  }

  /** A status with `n` of 20 players online and no MOTD. */
  function Bare(n: int): Option<Payload> {
    Some(Payload(true, Some(Players(n, 20)), None, Some(Debug(Some(35)))))
  }

  /** The signature and presence text of a status without MOTD. */
  lemma BareFacts()
    ensures Signature(Bare(3)) == Some("ONLINE-3-20-undefined")
    ensures PresenceText(VisibleOf(Bare(3)).value) == "3 Players"
    ensures !MotdFenceThrows(Bare(3)) && !RenderThrows(Bare(3))
  {
    SampleNumbers();
    assert MotdHead(Bare(3).value) == "undefined";
    assert VisibleOf(Bare(3)) == Some(Up(3, 20, "undefined"));
    assert PresenceText(Up(3, 20, "undefined")) == "3 Players";
    assert Field(20, "undefined") == "20-undefined";
    assert OnlinePrefix + Field(3, "20-undefined") == "ONLINE-3-20-undefined";
  }

  /** As written, a server without MOTD lines is announced: line 102 is skipped. */
  lemma BareAnnounces()
    ensures var c := StepAsWritten(Initial, Smooth(Bare(3), "m1"));
            && c.effects == [Send(Bare(3)), SetActivity("3 Players")]
            && c.state == State(Some("m1"), "ONLINE-3-20-undefined")
  {
    BareFacts();
    var o := Smooth(Bare(3), "m1");
    assert TryEdit(None, o) == (None, []);
    var p := Publish(Initial, "ONLINE-3-20-undefined", "3 Players", o);
    assert p.effects == [] + [Send(Bare(3))] + [SetActivity("3 Players")];
    assert [] + [Send(Bare(3))] + [SetActivity("3 Players")] == [Send(Bare(3)), SetActivity("3 Players")];
    assert StepAsWritten(Initial, o) == p;
  }

  /** A player joins: exactly one edit of the tracked message. */
  lemma ChangeEdits()
    ensures var c := Step(State(Some("m1"), "ONLINE-3-20-Hi"), Smooth(Hi(4), "m2"));
            && c.effects == [Edit("m1", Hi(4)), SetActivity("4 Players")]
            && c.state == State(Some("m1"), "ONLINE-4-20-Hi")
  {
    SampleFacts();
    assert "ONLINE-4-20-Hi"[7] != "ONLINE-3-20-Hi"[7];
    EditSuccess(State(Some("m1"), "ONLINE-3-20-Hi"), Smooth(Hi(4), "m2"));
  }

  /** The provider never answers: the message is edited to the offline
      rendering once and the signature becomes the offline sentinel. */
  lemma OutageEditsOnce()
    ensures var c := Step(State(Some("m1"), "ONLINE-4-20-Hi"), Smooth(FetchStatusAsWritten(NoAnswer), "m2"));
            && c.effects == [Edit("m1", None), SetActivity("Offline")]
            && c.state == State(Some("m1"), Offline)
  {
    var c := Step(State(Some("m1"), "ONLINE-4-20-Hi"), Smooth(FetchStatusAsWritten(NoAnswer), "m2"));
    assert c.effects == [Edit("m1", None)] + [SetActivity("Offline")];
  }

  /** The tracked message was deleted: the id is dropped and a new message is
      sent in the same cycle. */
  lemma DeletedMessageResent()
    ensures var c := Step(State(Some("m1"), Offline), Outcomes(true, true, Hi(4), false, false, Some("m3")));
            && c.effects == [Send(Hi(4)), SetActivity("4 Players")]
            && c.state == State(Some("m3"), "ONLINE-4-20-Hi")
  {
    SampleFacts();
    var c := Step(State(Some("m1"), Offline), Outcomes(true, true, Hi(4), false, false, Some("m3")));
    assert c.effects == [] + [Send(Hi(4))] + [SetActivity("4 Players")];
  }
}

=== FILE: signature_computer.dfy ===
/** The fingerprint of a status (index.js lines 80-84) and the presence text
    derived from the same fields (lines 118-121). */
module SignatureComputer {
  import opened Wrappers
  import opened StatusFetcher
  import Decimal

  /** The one signature every offline or unreachable status shares. */
  const Offline: string := "OFFLINE"

  /** Every online signature starts with this. */
  const OnlinePrefix: string := "ONLINE-"

  /** `lastStatusSignature` before any cycle has completed. */
  const NoSignature: string := ""

  /** `${data.motd?.clean?.[0]}`: the first MOTD line, or the text `undefined`
      when there is no MOTD object, no `clean` list or an empty one. */
  function MotdHead(p: Payload): (head: string)
    ensures p.motd.None? || p.motd.value.clean.None? ==> head == "undefined"
    ensures p.motd.Some? && p.motd.value.clean == Some([]) ==> head == "undefined"
    ensures p.motd.Some? && p.motd.value.clean.Some? && |p.motd.value.clean.value| > 0
            ==> head == p.motd.value.clean.value[0]
  {
    if p.motd.Some? && p.motd.value.clean.Some? && |p.motd.value.clean.value| > 0
    then p.motd.value.clean.value[0]
    else "undefined"
  }

  /** True when computing the signature throws: the server is reported online
      but `data.players` is absent, so `data.players.online` is a TypeError. */
  predicate SignatureThrows(data: Option<Payload>)
    ensures SignatureThrows(data) ==> IsOnline(data)
    ensures data.Some? && data.value.players.Some? ==> !SignatureThrows(data)
  {
    IsOnline(data) && data.value.players.None?
  }

  /** The user-visible dimensions of a status, as an independent reference for
      what the signature is meant to capture. */
  datatype Visible = Down | Up(playersOnline: int, playersMax: int, motdHead: string)

  function VisibleOf(data: Option<Payload>): (v: Option<Visible>)
    ensures v.None? <==> SignatureThrows(data)
    ensures v == Some(Down) <==> !IsOnline(data)
  {
    if !IsOnline(data) then Some(Down)
    else match data.value.players
      case None => None
      case Some(pl) => Some(Up(pl.online, pl.max, MotdHead(data.value)))
  }

  /** A count written out and followed by a dash, then the rest of the signature. */
  function Field(n: int, rest: string): string {
    Decimal.IntToString(n) + "-" + rest
  }

  /** The signature text of a set of visible dimensions. */
  function Render(v: Visible): (s: string)
    ensures s != NoSignature
    ensures s == Offline <==> v.Down?
    ensures v.Up? <==> OnlinePrefix <= s
  {
    match v
    case Down => assert Offline[1] != OnlinePrefix[1]; Offline
    case Up(n, m, head) =>
      OnlinePrefix + Field(n, Field(m, head))
  }

  /** `currentSignature`; `None` when its computation throws. */
  function Signature(data: Option<Payload>): (sig: Option<string>)
    ensures sig.None? <==> SignatureThrows(data)
    ensures !IsOnline(data) ==> sig == Some(Offline)
    ensures IsOnline(data) && sig.Some? ==> OnlinePrefix <= sig.value && sig.value != Offline
    ensures sig.Some? ==> sig.value != NoSignature
  {
    match VisibleOf(data)
    case None => None
    case Some(v) => Some(Render(v))
  }

  /** A signature value: what `Signature` can produce. */
  predicate IsSignature(s: string) {
    s == Offline || OnlinePrefix <= s
  }

  /** The activity text: `<players.online> Players` when online, else `Offline`. */
  function PresenceText(v: Visible): (text: string)
    ensures v.Down? <==> text == "Offline"
  {
    match v
    case Down => "Offline"
    case Up(n, _, _) => Decimal.IntToString(n) + " Players"
  }

  /** In `<integer>-<rest>`, the first dash after the sign is the one following the integer. */
  lemma DashEndsInt(u: string, x: string)
    requires 1 <= |u| && forall i :: 1 <= i < |u| ==> u[i] != '-'
    ensures (u + "-" + x)[|u|] == '-'
    ensures forall i :: 1 <= i < |u| ==> (u + "-" + x)[i] != '-'
  {
  }

  /** Splitting `<integer>-<rest>` at the first dash after the integer's sign is unambiguous. */
  lemma SplitAfterInt(a: int, x: string, b: int, y: string)
    requires Decimal.IntToString(a) + "-" + x == Decimal.IntToString(b) + "-" + y
    ensures a == b && x == y
  {
    var u, v := Decimal.IntToString(a), Decimal.IntToString(b);
    Decimal.DashOnlyAsSign(a);
    Decimal.DashOnlyAsSign(b);
    var l, r := u + "-" + x, v + "-" + y;
    DashEndsInt(u, x);
    DashEndsInt(v, y);
    assert |u| == |v|;
    assert u == l[..|u|] == r[..|v|] == v;
    Decimal.IntToStringInjective(a, b);
    assert x == l[|u| + 1..] == r[|v| + 1..] == y;
  }

  /** Dropping a common prefix. */
  lemma CancelPrefix(p: string, x: string, y: string)
    requires p + x == p + y
    ensures x == y
  {
    assert x == (p + x)[|p|..];
    assert y == (p + y)[|p|..];
  }

  /** Dropping a common suffix. */
  lemma CancelSuffix(x: string, y: string, q: string)
    requires x + q == y + q
    ensures x == y
  {
    assert x == (x + q)[..|x|];
    assert y == (y + q)[..|y|];
  }

  /** The online presence text `<n> Players` shows the player count: two online
      statuses get the same text exactly when the same number of players is on. */
  lemma PresenceShowsCount(v: Visible, w: Visible)
    requires v.Up? && w.Up?
    ensures PresenceText(v) == PresenceText(w) <==> v.playersOnline == w.playersOnline
  {
    if PresenceText(v) == PresenceText(w) {
      CancelSuffix(Decimal.IntToString(v.playersOnline), Decimal.IntToString(w.playersOnline), " Players");
      Decimal.IntToStringInjective(v.playersOnline, w.playersOnline);
    }
  }

  /** Two online signatures are equal only for equal counts and first MOTD line. */
  lemma UpRenderInjective(v: Visible, w: Visible)
    requires v.Up? && w.Up? && Render(v) == Render(w)
    ensures v == w
  {
    CancelPrefix(OnlinePrefix, Field(v.playersOnline, Field(v.playersMax, v.motdHead)),
                 Field(w.playersOnline, Field(w.playersMax, w.motdHead)));
    SplitAfterInt(v.playersOnline, Field(v.playersMax, v.motdHead), w.playersOnline, Field(w.playersMax, w.motdHead));
    SplitAfterInt(v.playersMax, v.motdHead, w.playersMax, w.motdHead);
  }

  /** Signatures are equal exactly when the visible dimensions are. */
  lemma RenderInjective(v: Visible, w: Visible)
    ensures Render(v) == Render(w) <==> v == w
  {
    if Render(v) == Render(w) && v.Up? && w.Up? {
      UpRenderInjective(v, w);
    }
  }

  /** Two statuses get the same signature exactly when they agree on the online
      flag, the two player counts and the first MOTD line; ping, later MOTD lines
      and every other field are ignored. */
  lemma SignatureMatchesVisible(d: Option<Payload>, e: Option<Payload>)
    requires !SignatureThrows(d) && !SignatureThrows(e)
    ensures Signature(d) == Signature(e) <==> VisibleOf(d) == VisibleOf(e)
  {
    RenderInjective(VisibleOf(d).value, VisibleOf(e).value);
  }

  /** Every unreachable or offline status has the same signature, whatever the
      cause: an abort before the headers, a rejected request, a non-2xx status,
      an unreadable body, or a payload reporting the server down. */
  lemma OfflineCollapse(t: Transport, p: Payload)
    requires AbortedAsWritten(t) || t.Rejected? || (t.Responded? && (!t.ok || t.body.None?))
    requires !p.online
    ensures Signature(FetchStatusAsWritten(t)) == Signature(Some(p)) == Some(Offline)
  {
  }

  /** The same collapse for the corrected fetch, which also aborts on a late body. */
  lemma OfflineCollapseCorrected(t: Transport, p: Payload)
    requires Aborted(t) || t.Rejected? || (t.Responded? && (!t.ok || t.body.None?))
    requires !p.online
    ensures Signature(FetchStatus(t)) == Signature(Some(p)) == Some(Offline)
  {
  }

  /** Two payloads that differ only in fields outside the fingerprint (the
      ping `debug.cachetime`, MOTD lines after the first) have equal signatures. */
  lemma SignatureIgnoresNoise(p: Payload, q: Payload)
    requires p.online == q.online && p.players == q.players && MotdHead(p) == MotdHead(q)
    ensures Signature(Some(p)) == Signature(Some(q))
  {
  }

  /** Equal signatures mean equal presence text, so skipping `setActivity` on a
      deduplicated cycle never leaves a wrong player count behind. */
  lemma SameSignatureSamePresence(d: Option<Payload>, e: Option<Payload>)
    requires Signature(d).Some? && Signature(d) == Signature(e)
    ensures PresenceText(VisibleOf(d).value) == PresenceText(VisibleOf(e).value)
  {
    SignatureMatchesVisible(d, e);
  }
}

=== FILE: status_fetcher.dfy ===
/** The status provider's answer and `getServerStatus`, which turns every
    way of not getting a usable answer into `null` (here `None`). */
module StatusFetcher {
  import opened Wrappers

  /** The request is aborted when no response has arrived after this many milliseconds. */
  const TimeoutMs: nat := 4000

  datatype Players = Players(online: int, max: int)

  /** `motd`; `clean` holds the MOTD lines without formatting codes. */
  datatype Motd = Motd(clean: Option<seq<string>>)

  /** `debug`; `cachetime` is shown as the ping. */
  datatype Debug = Debug(cachetime: Option<int>)

  /** The fields of the provider's JSON document that the bot reads. An absent
      object (or a JSON `null` in its place) is `None`. */
  datatype Payload = Payload(
    online: bool,
    players: Option<Players>,
    motd: Option<Motd>,
    debug: Option<Debug>)

  /** What became of the one HTTP request of a cycle. */
  datatype Transport =
    | Rejected(afterMs: nat)   // fetch rejected (DNS, TLS, connection reset, ...)
    | NoAnswer                 // the provider never answers
      /** Headers arrive after `headersMs`; reading the body takes `bodyMs` more
          and yields `body`, which is None when `response.json()` rejects. */
    | Responded(headersMs: nat, bodyMs: nat, ok: bool, body: Option<Payload>)

  /** Whether the request is aborted as the code is written: only when the headers
      are late, since line 49 clears the timer before the body is read at line 51. */
  predicate AbortedAsWritten(t: Transport) {
    match t
    case Rejected(ms) => ms >= TimeoutMs
    case NoAnswer => true
    case Responded(headers, _, _, _) => headers >= TimeoutMs
  }

  /** `getServerStatus` as written: the body is read with no timer running. */
  function FetchStatusAsWritten(t: Transport): (data: Option<Payload>)
    ensures data.Some? <==> t.Responded? && !AbortedAsWritten(t) && t.ok && t.body.Some?
    ensures data.Some? ==> data == t.body
  {
    if AbortedAsWritten(t) then None
    else match t
      case Rejected(_) => None
      case NoAnswer => None
      case Responded(_, _, ok, body) => if !ok then None else body
  }

  /** How long `getServerStatus` as written takes before it returns. */
  function ElapsedMsAsWritten(t: Transport): (ms: nat)
    ensures AbortedAsWritten(t) ==> ms == TimeoutMs
    ensures t.Responded? && !AbortedAsWritten(t) && t.ok ==> ms == t.headersMs + t.bodyMs
  {
    match t
    case Rejected(after) => if after < TimeoutMs then after else TimeoutMs
    case NoAnswer => TimeoutMs
    case Responded(headers, bodyTime, ok, _) =>
      if headers >= TimeoutMs then TimeoutMs
      else if ok then headers + bodyTime
      else headers
  }

  /** A provider that sends its headers at once and then trickles the body keeps
      the cycle waiting far past the 4-second bound. */
  lemma SlowBodyOverrunsTimeout()
    ensures var t := Responded(100, 10000, true, None);
            ElapsedMsAsWritten(t) == 10100 > TimeoutMs
  {
  }

  /** The request counts as aborted when the timer fires before the whole answer,
      body included, is in: the timer is cleared only after `response.json()`. */
  predicate Aborted(t: Transport) {
    match t
    case Rejected(ms) => ms >= TimeoutMs
    case NoAnswer => true
    case Responded(headers, bodyTime, ok, _) =>
      headers >= TimeoutMs || (ok && headers + bodyTime >= TimeoutMs)
  }

  /** `getServerStatus`: the payload of a successful, timely response, and `None`
      on abort, rejection, a non-2xx status or an unreadable body. */
  function FetchStatus(t: Transport): (data: Option<Payload>)
    ensures data.Some? <==> t.Responded? && !Aborted(t) && t.ok && t.body.Some?
    ensures data.Some? ==> data == t.body
    ensures data.Some? ==> FetchStatusAsWritten(t) == data
  {
    if Aborted(t) then None else FetchStatusAsWritten(t)
  }

  /** How long `getServerStatus` takes before it returns: never past the timeout. */
  function ElapsedMs(t: Transport): (ms: nat)
    ensures ms <= TimeoutMs
    ensures Aborted(t) ==> ms == TimeoutMs
    ensures !Aborted(t) ==> ms == ElapsedMsAsWritten(t)
  {
    if Aborted(t) then TimeoutMs else ElapsedMsAsWritten(t)
  }

  /** `data && data.online`: a payload is there and reports the server up. */
  predicate IsOnline(data: Option<Payload>)
    ensures IsOnline(data) ==> data.Some?
    ensures data.Some? ==> (IsOnline(data) <==> data.value.online)
  {
    data.Some? && data.value.online
  }
}

=== FILE: wrappers.dfy ===
/** The optional value used wherever the bot's JavaScript has a nullable value. */
module Wrappers {

  /** `None` stands for JavaScript's `null`/`undefined`. */
  datatype Option<+T> = None | Some(value: T)
}
